=== FILE: README.md ===
# PythonControllerTemplate frame flattening, in Dafny

This project models the core of the strategy bridge's `PythonControllerTemplate`
processor (`src/strategy_bridge/processors/python_controller_template.py`). Once per
tick, `process` allocates four zero-filled numpy arrays: the ball array (three planes of
256 slots), one 80-slot robot array per team, and the two-slot `field_info`. It then
drains the vision reader. For each new SSL-Vision wrapper frame, `process_ssl` scatters
the frame into those shared arrays by fixed index arithmetic:

- geometry goes to `field_info[0..1]`;
- ball `i` of camera `c` goes to `i + (c-1)*64` in each ball plane;
- robot `r` goes to `r + 16*k` in plane `k` of its team's array.

`process_ssl` then reads the latest referee command and returns a constant list of 416
copies of `5.0`. `process` packs that list as 8-byte doubles and writes it as one command
record.

Modules, one per concept:

- `Wrappers`: `Option` and a failure-compatible `Result`.
- `NdArray`: `numpy.zeros` and numpy item assignment. An index in `[0, n)` writes that
  slot. An index in `[-n, 0)` wraps to `n + i`. Any other index raises `IndexError`.
- `Layout`: the size constants, the ball and robot index formulas and their inverses.
- `Vision`: the decoded frame (optional geometry, optional detection), plus the bounds
  the index arithmetic relies on (`WellFormed`).
- `Bus`: a minimal reader that hands out its pending records and a writer that appends.
- `Referee`: `RefereeCommand` and `get_last_referee_command`.
- `Packing`: the `[5.0] * 32 * 13` rule list and `b''.join(struct.pack('d', …))`, with a
  split/join round trip.
- `Scatter`: the ball and robot loops exactly as written, with no bounds guard and a stop
  at the first `IndexError`. Also a slot-by-slot reference definition of what each loop
  leaves for in-range input, lemmas connecting the two, and lemmas showing what the
  unguarded loops do out of range.
- `ControllerTemplate`: the buffers, `process_ssl`, which frames make it raise, a
  reference for the buffers after the first n frames of a tick, one loop iteration of
  `process`, and `process` itself as a loop.

The code has no bounds checks. Its implicit preconditions are:

- a one-based camera id of at most 4;
- at most 64 balls per camera;
- robot ids below 16.

These preconditions are the predicate `Vision.WellFormed`. The loops are modelled for
every input, and `Scatter` states exactly which inputs raise. A ball raises exactly when
`(camera_id - 1) * 64 + ball_ind` is 256 or more (`Scatter.StoreBallFits`). A robot
raises exactly when its id is 32 or more (`Scatter.StoreRobotFits`). The consequences:

- Camera id 0 raises for none of the first 320 balls. For each of the first 64, only
  the camera-id index is negative; numpy wraps it onto camera 4's y slot for that ball.
  The x and y indices are in range and land one plane lower, on camera 4's camera-id
  and x slots (`Scatter.CameraZeroAliases`).
- Camera id 5 or more raises on the first ball. With no balls, the ball loop does not
  raise.
- The 65th ball of cameras 1 to 3 overwrites the next camera's first ball
  (`Scatter.BallOverflowAliases`). The 65th ball of camera 4 raises
  (`Scatter.CameraFourOverflowRaises`).
- A robot id from 16 to 31 does not raise. Its camera id, x and y overwrite robot
  `id - 16`'s x, y and orientation slots, and its orientation lands in the fifth plane
  (`Scatter.RobotIdAliases`).

A frame that breaks the bounds without raising is flattened, and `process` writes a
packet for it, like any other frame.

The model follows the code as written, including where it departs from what it appears
to intend:

- An out-of-range index is not skipped. It is written, or it raises, as above.
- The packet is the constant rule list, not the flattened arrays.
- The referee command is read and then ignored.

The tests `if geometry:` and `if not detection:` are read as presence tests (see "Left
out"). Under that reading, a frame without a geometry section leaves `field_info` as the
earlier frames of the same tick left it.

## Model

| member | source | states |
|---|---|---|
| NdArray.Zeros | src/strategy_bridge/processors/python_controller_template.py:51-54 | `np.zeros(n)` has length n and every element 0 |
| NdArray.Position | src/strategy_bridge/processors/python_controller_template.py:81-83 | numpy index rule: i in [0,n) addresses i, i in [-n,0) addresses n+i, anything else addresses nothing |
| NdArray.Store | src/strategy_bridge/processors/python_controller_template.py:81-83 | item assignment succeeds iff -n <= i < n, else IndexError; on success exactly the addressed slot changes, length kept |
| Layout.BallIndex | src/strategy_bridge/processors/python_controller_template.py:81-83 | for a valid camera, ball index < 64 and plane < 3 the index is in [0,768), lies in that plane, in that camera's 64-slot block, at that ball's offset |
| Layout.BallOwner | src/strategy_bridge/processors/python_controller_template.py:80-83 | every ball slot is the index of some in-range (camera, ball, plane) triple (the formula is onto [0,768)) |
| Layout.BallOwnerOfIndex | src/strategy_bridge/processors/python_controller_template.py:80-83 | decoding the index of an in-range triple gives back that triple |
| Layout.BallIndexInjective | src/strategy_bridge/processors/python_controller_template.py:80-83 | distinct in-range triples never share a slot: planes are disjoint and balls of different cameras never collide |
| Layout.RobotIndex | src/strategy_bridge/processors/python_controller_template.py:87-90 | for id < 16 and plane < 4 the index is below 64, lies in that plane, at that id's offset |
| Layout.RobotOwner | src/strategy_bridge/processors/python_controller_template.py:86-96 | every slot of the four written planes is the index of some in-range (id, plane) pair |
| Layout.RobotOwnerOfIndex | src/strategy_bridge/processors/python_controller_template.py:86-90 | decoding the index of an in-range (id, plane) pair gives back that pair |
| Layout.RobotIndexInjective | src/strategy_bridge/processors/python_controller_template.py:86-96 | distinct in-range (id, plane) pairs never share a slot, and no such slot reaches the fifth plane (slots 64..79) |
| Layout.BufferSizes | src/strategy_bridge/processors/python_controller_template.py:22-32 | the derived sizes: 256 balls, 768 ball slots, 16 robots per team, 80-slot team arrays of which 64 are addressed, 2 geometry slots |
| Bus.ReadNew | src/strategy_bridge/processors/python_controller_template.py:60 | read_new returns the pending records in order and leaves none pending |
| Bus.Write | src/strategy_bridge/processors/python_controller_template.py:64 | write appends the record last, and the log of appended records keeps earlier entries in order |
| Bus.WriteRepeated | src/strategy_bridge/processors/python_controller_template.py:60-64 | after n writes of one record, one more write leaves n + 1 copies of it after the earlier records |
| Referee.LastRefereeCommand | src/strategy_bridge/processors/python_controller_template.py:43-47 | returns the last new referee record, or RefereeCommand(0, 0, False) when there is none; the reader is drained either way |
| Packing.ListRepeat | src/strategy_bridge/processors/python_controller_template.py:99 | Python list repetition `xs * n` has len(xs)*n elements, each taken from xs |
| Packing.ConstantRules | src/strategy_bridge/processors/python_controller_template.py:99-100 | the rule list is 32*13 = 416 elements, all 5.0 |
| Packing.Join | src/strategy_bridge/processors/python_controller_template.py:62-63 | joining words gives 8 bytes per word |
| Packing.JoinSlices | src/strategy_bridge/processors/python_controller_template.py:62-63 | in a joined byte string, word i sits at bytes [8i, 8i+8) |
| Packing.Split | src/strategy_bridge/processors/python_controller_template.py:62-63 | cutting a byte string of length 8m gives m words |
| Packing.SplitJoin | src/strategy_bridge/processors/python_controller_template.py:62-63 | cutting a joined packet recovers the words |
| Packing.JoinSplit | src/strategy_bridge/processors/python_controller_template.py:62-63 | joining the words of a cut byte string recovers the bytes |
| Packing.EncodeAll | src/strategy_bridge/processors/python_controller_template.py:63 | one encoded word per rule, rule i encoded at position i |
| Packing.Pack | src/strategy_bridge/processors/python_controller_template.py:62-63 | the packet is 8 bytes per rule |
| Packing.PackSlices | src/strategy_bridge/processors/python_controller_template.py:62-63 | rule i's encoding sits at bytes [8i, 8i+8) of the packet |
| Packing.UnpackPack | src/strategy_bridge/processors/python_controller_template.py:62-63 | a packet cut into words gives each rule's encoding in rule order |
| Packing.ConstantPacketLayout | src/strategy_bridge/processors/python_controller_template.py:62-63 | the packet of the constant rules is 3328 bytes: 416 copies of the encoding of 5.0 |
| Scatter.StoreBall | src/strategy_bridge/processors/python_controller_template.py:81-83 | one ball iteration keeps the array length and can only fail with IndexError |
| Scatter.StoreBalls | src/strategy_bridge/processors/python_controller_template.py:80-83 | the ball loop keeps the array length and can only fail with IndexError |
| Scatter.StoreRobot | src/strategy_bridge/processors/python_controller_template.py:87-90 | one robot iteration keeps the array length and can only fail with IndexError |
| Scatter.StoreRobots | src/strategy_bridge/processors/python_controller_template.py:86-96 | a robot loop keeps the array length and can only fail with IndexError |
| Scatter.StoreBallFits | src/strategy_bridge/processors/python_controller_template.py:81-83 | one ball iteration succeeds exactly when (camera_id - 1) * 64 + ball_ind is below 256, whatever the array holds |
| Scatter.StoreBallsFit | src/strategy_bridge/processors/python_controller_template.py:80-83 | the ball loop raises exactly when its last ball does not fit, whatever the array holds |
| Scatter.StoreRobotFits | src/strategy_bridge/processors/python_controller_template.py:87-90 | one robot iteration succeeds exactly when the robot id is below 32, whatever the array holds |
| Scatter.StoreRobotsFit | src/strategy_bridge/processors/python_controller_template.py:86-96 | a robot loop raises exactly when some robot's id is 32 or more |
| Scatter.BallFitsIndices | src/strategy_bridge/processors/python_controller_template.py:81-83 | (camera_id - 1) * 64 + ball_ind is below 256 exactly when numpy accepts all three of the ball's indices on the 768-slot array; the lowest index is never below -64 |
| Scatter.RobotFitsIndices | src/strategy_bridge/processors/python_controller_template.py:87-90 | a robot id is below 32 exactly when all four of its indices are inside the 80-slot array |
| Scatter.LastWithId | src/strategy_bridge/processors/python_controller_template.py:86-96 | finds the last robot of the list with a given id, and reports none exactly when no robot has it |
| Scatter.StoreBallInRange | src/strategy_bridge/processors/python_controller_template.py:81-83 | an in-range ball iteration succeeds and changes exactly that ball's three slots, to camera id, x and y |
| Scatter.StoreBallsInRange | src/strategy_bridge/processors/python_controller_template.py:80-83 | for a valid camera and at most 64 balls the loop never raises, and its result is the reference array: ball i of the frame's camera in its slot of each plane, all other slots untouched |
| Scatter.StoreRobotInRange | src/strategy_bridge/processors/python_controller_template.py:87-90 | an in-range robot iteration succeeds and changes exactly the four slots of its id, to camera id, x, y and orientation |
| Scatter.StoreRobotsInRange | src/strategy_bridge/processors/python_controller_template.py:86-96 | for ids below 16 the loop never raises, and each addressed slot holds the last robot with that id; all other slots, the fifth plane included, are untouched |
| Scatter.CameraZeroAliases | src/strategy_bridge/processors/python_controller_template.py:81-83 | with camera id 0, for each of the first 64 balls the camera-id index is negative and wraps onto camera 4's y slot for that ball, while x and y land one plane lower on camera 4's camera-id and x slots |
| Scatter.CameraZeroWraps | src/strategy_bridge/processors/python_controller_template.py:81-83 | with camera id 0, the camera-id index -64 wraps to slot 704; x and y land in range at 192 and 448, one plane below camera 4's first ball; nothing is raised |
| Scatter.CameraFiveRaises | src/strategy_bridge/processors/python_controller_template.py:81-83 | with camera id 5 the first ball raises IndexError |
| Scatter.CameraFourOverflowRaises | src/strategy_bridge/processors/python_controller_template.py:81-83 | the 65th ball of camera 4 raises IndexError: its y index is 768 |
| Scatter.BallOverflowAliases | src/strategy_bridge/processors/python_controller_template.py:80-83 | the 65th ball of cameras 1 to 3 lands in the next camera's first ball slot |
| Scatter.RobotSixteenAliases | src/strategy_bridge/processors/python_controller_template.py:87-90 | robot id 16 writes over robot 0's x slot and into the fifth plane, without raising |
| Scatter.SingleRobotAfter | src/strategy_bridge/processors/python_controller_template.py:86-90 | after a one-robot list, the robot's four slots hold camera id, x, y and orientation and every other slot is untouched |
| Scatter.RobotIdAliases | src/strategy_bridge/processors/python_controller_template.py:87-90 | a robot id from 16 to 31 does not raise; its camera-id, x and y slots are robot (id - 16)'s x, y and orientation slots, and its orientation lands in the fifth plane |
| Scatter.LargeRobotIdRaises | src/strategy_bridge/processors/python_controller_template.py:87-90 | robot ids from 32 up raise IndexError |
| ControllerTemplate.ZeroBuffers | src/strategy_bridge/processors/python_controller_template.py:51-54 | every tick starts with balls of length 768, two team arrays of length 80 and field_info of length 2, all zero |
| ControllerTemplate.StoreGeometry | src/strategy_bridge/processors/python_controller_template.py:72-73 | on the two-slot array, field_info becomes [field_length, field_width] |
| ControllerTemplate.FlattenBuffers | src/strategy_bridge/processors/python_controller_template.py:70-96 | the buffer part of process_ssl: only IndexError can escape; without detection the ball and robot arrays are untouched; field_info is [length, width] with geometry and unchanged without; sizes are kept |
| ControllerTemplate.ProcessSsl | src/strategy_bridge/processors/python_controller_template.py:67-100 | only IndexError can escape; rules are returned iff the frame has detection, and then they are the constant list and the referee reader is drained; without detection the ball and robot arrays and the referee reader are untouched; field_info is [length, width] with geometry and unchanged without |
| ControllerTemplate.ProcessSslWellFormed | src/strategy_bridge/processors/python_controller_template.py:67-100 | a well-formed frame with detection is flattened without error to exactly the reference arrays, with the reader drained and the constant rules |
| ControllerTemplate.ProcessSslFailure | src/strategy_bridge/processors/python_controller_template.py:75-96 | flattening fails only for a frame with a detection section that breaks the layout's bounds |
| ControllerTemplate.ProcessSslRaises | src/strategy_bridge/processors/python_controller_template.py:70-96 | flattening into sized buffers raises exactly when the frame has a detection section in which some ball or robot index is rejected; the buffers' contents and the referee reader do not matter |
| ControllerTemplate.WellFormedDoesNotRaise | src/strategy_bridge/processors/python_controller_template.py:79-96 | a detection section inside the layout's bounds never raises |
| ControllerTemplate.CameraZeroDoesNotRaise | src/strategy_bridge/processors/python_controller_template.py:79-83 | a one-ball camera-0 frame breaks the bounds but does not raise, so raising is strictly narrower than breaking the bounds |
| ControllerTemplate.FifthPlaneUntouched | src/strategy_bridge/processors/python_controller_template.py:86-96 | slots 64..79 of both team arrays keep their value through a well-formed frame |
| ControllerTemplate.FifthPlaneStaysZero | src/strategy_bridge/processors/python_controller_template.py:51-96 | over a tick of well-formed frames, slots 64..79 of both team arrays stay zero |
| ControllerTemplate.SingleBallExample | src/strategy_bridge/processors/python_controller_template.py:80-83 | ball index 5 of camera 2 from zero buffers puts 2.0, x and y at slots 69, 325 and 581; nothing outside camera 2's first six balls is written; the team arrays and field_info stay zero |
| ControllerTemplate.BlueRobotExample | src/strategy_bridge/processors/python_controller_template.py:86-90 | blue robot id 3 from zero buffers puts camera id, x, y and orientation at blue slots 3, 19, 35 and 51; every other blue slot, the yellow array and the ball array stay zero |
| ControllerTemplate.RobotThreeSlots | src/strategy_bridge/processors/python_controller_template.py:87-90 | a lone robot with id 3 occupies slots 3, 19, 35 and 51 and no other |
| ControllerTemplate.BlueRobotsOnlyTouchBlue | src/strategy_bridge/processors/python_controller_template.py:86-96 | two well-formed frames that differ only in their blue robots leave the same balls, yellow array, field_info, referee reader and rules |
| ControllerTemplate.RepeatedIdLastWins | src/strategy_bridge/processors/python_controller_template.py:86-90 | of two robots with the same id in one frame, the later one's values remain |
| ControllerTemplate.Replay | src/strategy_bridge/processors/python_controller_template.py:60-61 | after the first n frames of a tick, all flattened, the buffers are sized and field_info holds the last geometry among them, or zeros |
| ControllerTemplate.ReplayStep | src/strategy_bridge/processors/python_controller_template.py:60-61 | flattening frame i, with any referee reader, into the buffers of the first i frames gives the buffers of the first i + 1 |
| ControllerTemplate.FlattenAndPack | src/strategy_bridge/processors/python_controller_template.py:61-64 | one loop iteration fails with NoneNotIterable iff the frame has no detection and with IndexError iff process_ssl raises on it; otherwise its buffers and drained reader are exactly those process_ssl returns, and the packet is the 416-double one |
| ControllerTemplate.ProcessStep | src/strategy_bridge/processors/python_controller_template.py:60-64 | from the buffers of the first i frames, frame i either ends the tick with the exception it raises, or gives the buffers of the first i + 1 frames and appends one constant packet |
| ControllerTemplate.ProcessFrames | src/strategy_bridge/processors/python_controller_template.py:60-64 | the loop stops at the first frame that raises or lacks detection and reports its exception, or runs to the end; every frame before it is flattened and wrote one constant packet; the buffers after a full run are the reference ones |
| ControllerTemplate.Process | src/strategy_bridge/processors/python_controller_template.py:50-64 | drains the vision reader; appends one constant packet per processed frame, in order, after the earlier records; the tick stops exactly at the first frame that lacks detection (NoneNotIterable) or makes process_ssl raise (IndexError), and runs to the end otherwise; the referee reader is drained iff some frame was processed; on completion the buffers are the in-order flattening of all frames and field_info holds the last geometry, or zeros |

## Left out

- The layout sizes are fixed at their default values. The class is an `attrs` class
  (`python_controller_template.py:13`), so every annotated size at lines 22-32 is also a
  constructor keyword; only `SINGLE_ROBOT_PACKET_SIZE` is a plain class constant.
  Overriding a size in the constructor is not modelled. Nor is the fact that an
  overridden base size leaves the derived defaults (`MAX_BALLS_IN_FIELD`,
  `TEAM_ROBOTS_MAX_COUNT`, `ROBOT_TEAM_PACKET_SIZE`) at the values computed when the
  class was defined. `Layout.BufferSizes` states the derivations at the defaults only.
- Protobuf decoding (`FromString`) is not modelled. The frame arrives decoded.
- The protobuf runtime's truthiness of a submessage is not modelled. `if geometry:` and
  `if not detection:` are read as "the part is present". A runtime where an absent
  submessage reads back as a truthy default instance would instead write `[0, 0]` into
  `field_info` for a frame without geometry, and would never return None from
  `process_ssl`. The model does not cover that reading.
- The box-feedback reader and its `print` are not modelled. `process` drains that reader
  every tick (line 56), but nothing else in the class reads it, so it affects no buffer,
  referee reader or command.
- The `@debugger` and `@record_debugger` decorators are not modelled. They are logging
  instrumentation.
- `initialize` is not modelled. It binds readers and writers to configured topic names.
  `ControllerState` holds those bindings as given.
- The bus package (`strategy_bridge/bus`) is not part of this model. The reader and
  writer are minimal stand-ins: drain-in-order and append. Retention, eviction, sequence
  numbers and timestamps are not modelled.
- The byte layout of `struct.pack('d', …)` is not modelled. Packing takes an abstract
  encoder from a value to 8 bytes, and only lengths and order are stated.
- Sensor values are opaque reals, with no float64 rounding. The camera id and the int32
  field sizes convert exactly, as they do to float64.
- Concurrency and scheduling of processors are not modelled. One call to `process` is one
  tick of a single-threaded model.
- `bridge/processors/referee_commands_collector.py` is not modelled. It is transport
  receive and JSON parsing.
- `main.py` is not modelled. It is process orchestration.
- Packing.ListRepeat: states that every element of `xs * n` comes from `xs`, not that
  element k is `xs[k % len(xs)]`. `[5.0] * 32 * 13` repeats `[5.0]` and then the
  32-element list `[5.0] * 32`; every element of both is 5.0, so the two statements agree
  there.
- ControllerTemplate.Process: the buffers returned alongside an exception are not
  specified. The source discards them.

=== FILE: bus.dfy ===
/** A minimal stand-in for the bus reader and writer the controller is bound
    to: a reader hands out its pending records in order and then has none;
    a writer appends. Retention and eviction are not modelled. */
module Bus {

  /** Records published on the reader's topic that it has not yet returned. */
  datatype Reader<T> = Reader(pending: seq<T>)

  /** Records this writer has appended, oldest first. */
  datatype Writer<T> = Writer(written: seq<T>)

  /** read_new(): every unseen record, oldest first; afterwards none is unseen. */
  function ReadNew<T>(r: Reader<T>): (res: (seq<T>, Reader<T>))
    ensures res.0 == r.pending
    ensures res.1.pending == []
  {
    (r.pending, Reader([]))
  }

  /** write(content): the record goes after every earlier one. */
  function Write<T>(w: Writer<T>, content: T): (w': Writer<T>)
    ensures |w'.written| == |w.written| + 1
    ensures w'.written[..|w.written|] == w.written
    ensures w'.written[|w.written|] == content
  {
    Writer(w.written + [content])
  }

  /** After n writes of one record, one more write makes n + 1 copies of it. */
  lemma WriteRepeated<T>(w: Writer<T>, base: seq<T>, content: T, n: nat)
    requires w.written == base + seq(n, _ => content)
    ensures Write(w, content).written == base + seq(n + 1, _ => content)
  {
    assert seq(n, _ => content) + [content] == seq(n + 1, _ => content);
  }
}

=== FILE: controller_template.dfy ===
/** PythonControllerTemplate: per tick, every new vision frame is flattened into
    zero-initialised buffers shared by the frames of that tick, and one packed
    rule list is written per frame to the robot-commands topic. */
module ControllerTemplate {
  import opened Wrappers
  import opened NdArray
  import opened Layout
  import opened Vision
  import opened Bus
  import opened Referee
  import opened Packing
  import opened Scatter

  /** The four numpy arrays `process` allocates and `process_ssl` fills. */
  datatype Buffers = Buffers(
    fieldInfo: seq<real>,
    balls: seq<real>,
    robotsBlue: seq<real>,
    robotsYellow: seq<real>)

  /** The allocation sizes of the four arrays. */
  predicate Sized(b: Buffers) {
    && |b.fieldInfo| == GeometryPacketSize
    && |b.balls| == BallsLength
    && |b.robotsBlue| == RobotTeamPacketSize
    && |b.robotsYellow| == RobotTeamPacketSize
  }

  /** The arrays at the start of every `process` call. */
  function ZeroBuffers(): (b: Buffers)
    ensures Sized(b)
    ensures |b.balls| == 768 && |b.robotsBlue| == 80 && |b.robotsYellow| == 80 && |b.fieldInfo| == 2
    ensures forall k :: 0 <= k < 768 ==> b.balls[k] == 0.0
    ensures forall k :: 0 <= k < 80 ==> b.robotsBlue[k] == 0.0 && b.robotsYellow[k] == 0.0
    ensures b.fieldInfo == [0.0, 0.0]
  {
    Buffers(Zeros(GeometryPacketSize), Zeros(BallsLength), Zeros(RobotTeamPacketSize), Zeros(RobotTeamPacketSize))
  }

  /** `field_info[0] = field_length; field_info[1] = field_width`. */
  function StoreGeometry(fieldInfo: seq<real>, g: Geometry): (r: Result<seq<real>, Error>)
    ensures r.Success? <==> |fieldInfo| >= 2
    ensures |fieldInfo| == GeometryPacketSize ==> r == Success([g.fieldLength as real, g.fieldWidth as real])
  {
    var a :- Store(fieldInfo, 0, g.fieldLength as real);
    var r := Store(a, 1, g.fieldWidth as real);
    assert |fieldInfo| == GeometryPacketSize ==> r.value == [g.fieldLength as real, g.fieldWidth as real];
    r
  }

  /** What `process_ssl` leaves behind: the buffers, the referee reader, and the
      returned rules (None when the frame has no detection section). */
  datatype Flattened = Flattened(bufs: Buffers, referee: Reader<RefereeCommand>, rules: Option<seq<real>>)

  /** The buffer half of `process_ssl`: store the geometry, then, if the
      frame has a detection section, run the ball loop and the two robot
      loops. IndexError from a loop propagates. */
  function FlattenBuffers(frame: Frame, bufs: Buffers): (r: Result<Buffers, Error>)
    ensures r.Failure? ==> r.error == IndexError
    ensures Sized(bufs) && r.Success? ==> Sized(r.value)
    ensures Sized(bufs) && frame.detection.None? ==> r.Success?
    ensures r.Success? && frame.detection.None? ==>
      && r.value.balls == bufs.balls
      && r.value.robotsBlue == bufs.robotsBlue
      && r.value.robotsYellow == bufs.robotsYellow
    ensures r.Success? && frame.geometry.None? ==> r.value.fieldInfo == bufs.fieldInfo
    ensures r.Success? && frame.geometry.Some? && Sized(bufs) ==>
      r.value.fieldInfo == [frame.geometry.value.fieldLength as real, frame.geometry.value.fieldWidth as real]
  {
    var fieldInfo :- if frame.geometry.Some? then StoreGeometry(bufs.fieldInfo, frame.geometry.value)
                     else Success(bufs.fieldInfo);
    if frame.detection.None? then
      Success(bufs.(fieldInfo := fieldInfo))
    else
      var d := frame.detection.value;
      var balls :- StoreBalls(bufs.balls, d.cameraId, d.balls, 0);
      var blue :- StoreRobots(bufs.robotsBlue, d.cameraId, d.robotsBlue, 0);
      var yellow :- StoreRobots(bufs.robotsYellow, d.cameraId, d.robotsYellow, 0);
      Success(Buffers(fieldInfo, balls, blue, yellow))
  }

  /** `process_ssl`: flatten the frame into the buffers; without a detection
      section return None; otherwise consult the referee reader and return
      the constant rule list. IndexError from a loop propagates before the
      referee reader is touched. */
  function ProcessSsl(frame: Frame, bufs: Buffers, referee: Reader<RefereeCommand>): (r: Result<Flattened, Error>)
    ensures r.Failure? ==> r.error == IndexError
    ensures Sized(bufs) && r.Success? ==> Sized(r.value.bufs)
    ensures Sized(bufs) && frame.detection.None? ==> r.Success?
    ensures r.Success? ==> (r.value.rules.Some? <==> frame.detection.Some?)
    ensures r.Success? && r.value.rules.Some? ==> r.value.rules.value == ConstantRules()
    ensures r.Success? && r.value.rules.Some? ==> r.value.referee.pending == []
    ensures r.Success? && frame.detection.None? ==>
      && r.value.referee == referee
      && r.value.bufs.balls == bufs.balls
      && r.value.bufs.robotsBlue == bufs.robotsBlue
      && r.value.bufs.robotsYellow == bufs.robotsYellow
    ensures r.Success? && frame.geometry.None? ==> r.value.bufs.fieldInfo == bufs.fieldInfo
    ensures r.Success? && frame.geometry.Some? && Sized(bufs) ==>
      r.value.bufs.fieldInfo == [frame.geometry.value.fieldLength as real, frame.geometry.value.fieldWidth as real]
  {
    var flat :- FlattenBuffers(frame, bufs);
    if frame.detection.None? then
      Success(Flattened(flat, referee, None))
    else
      var (_, referee') := LastRefereeCommand(referee);
      Success(Flattened(flat, referee', Some(ConstantRules())))
  }

  /** `field_info` after a frame with optional geometry, from a sized buffer. */
  function FieldInfoAfter(fieldInfo: seq<real>, g: Option<Geometry>): seq<real> {
    match g
    case None => fieldInfo
    case Some(geo) => [geo.fieldLength as real, geo.fieldWidth as real]
  }

  /** A frame whose detection respects the layout's bounds is flattened without
      error, slot for slot as the reference definitions say: each ball at its
      camera's slots in the three planes, each blue robot in the blue array
      only, each yellow robot in the yellow array only, the referee reader
      drained and the constant rules returned. */
  lemma ProcessSslWellFormed(frame: Frame, bufs: Buffers, referee: Reader<RefereeCommand>)
    requires Sized(bufs)
    requires frame.detection.Some? && WellFormed(frame.detection.value)
    ensures var d := frame.detection.value;
      ProcessSsl(frame, bufs, referee) == Success(Flattened(
        Buffers(
          FieldInfoAfter(bufs.fieldInfo, frame.geometry),
          BallsAfter(bufs.balls, d.cameraId, d.balls, 0),
          RobotsAfter(bufs.robotsBlue, d.cameraId, d.robotsBlue, 0),
          RobotsAfter(bufs.robotsYellow, d.cameraId, d.robotsYellow, 0)),
        Reader([]),
        Some(ConstantRules())))
  {
    var d := frame.detection.value;
    StoreBallsInRange(bufs.balls, d.cameraId, d.balls, 0);
    StoreRobotsInRange(bufs.robotsBlue, d.cameraId, d.robotsBlue, 0);
    StoreRobotsInRange(bufs.robotsYellow, d.cameraId, d.robotsYellow, 0);
  }

  /** Failure of a sized flattening means the frame had a detection section
      that broke one of the layout's bounds. */
  lemma ProcessSslFailure(frame: Frame, bufs: Buffers, referee: Reader<RefereeCommand>)
    requires Sized(bufs)
    requires ProcessSsl(frame, bufs, referee).Failure?
    ensures frame.detection.Some? && !WellFormed(frame.detection.value)
  {
    if frame.detection.Some? && WellFormed(frame.detection.value) {
      ProcessSslWellFormed(frame, bufs, referee);
    }
  }

  /** The balls and robots of a detection section all sit at indices numpy
      accepts (wrapped or aliased ones included). */
  predicate Fits(d: Detection) {
    BallsFit(d.cameraId, 0, |d.balls|) && RobotsFit(d.robotsBlue, 0) && RobotsFit(d.robotsYellow, 0)
  }

  /** The frame makes `process_ssl` raise IndexError: it has a detection
      section that does not fit. */
  predicate Raises(frame: Frame) {
    frame.detection.Some? && !Fits(frame.detection.value)
  }

  /** Flattening into sized buffers fails exactly for the frames that raise:
      failure depends on the frame alone, not on what the buffers hold or on
      the referee reader. */
  lemma ProcessSslRaises(frame: Frame, bufs: Buffers, referee: Reader<RefereeCommand>)
    requires Sized(bufs)
    ensures ProcessSsl(frame, bufs, referee).Failure? <==> Raises(frame)
  {
    if frame.detection.Some? {
      var d := frame.detection.value;
      StoreBallsFit(bufs.balls, d.cameraId, d.balls, 0);
      StoreRobotsFit(bufs.robotsBlue, d.cameraId, d.robotsBlue, 0);
      StoreRobotsFit(bufs.robotsYellow, d.cameraId, d.robotsYellow, 0);
    }
  }

  /** A frame with a detection section inside the layout's bounds never raises. */
  lemma WellFormedDoesNotRaise(frame: Frame)
    requires frame.detection.Some? && WellFormed(frame.detection.value)
    ensures !Raises(frame)
  {
    ProcessSslWellFormed(frame, ZeroBuffers(), Reader([]));
    ProcessSslRaises(frame, ZeroBuffers(), Reader([]));
  }

  /** The converse fails: a one-ball frame from camera 0 breaks the bounds,
      yet numpy wraps its negative camera-id index and the frame is flattened
      without raising. */
  lemma CameraZeroDoesNotRaise(frame: Frame, b: Ball)
    requires frame.detection == Some(Detection(0, [b], [], []))
    ensures !WellFormed(frame.detection.value) && !Raises(frame)
  {
  }

  /** The fifth plane of both team arrays (slots 64..79) is never written by a
      well-formed frame. */
  lemma FifthPlaneUntouched(frame: Frame, bufs: Buffers, referee: Reader<RefereeCommand>, k: nat)
    requires Sized(bufs)
    requires frame.detection.Some? ==> WellFormed(frame.detection.value)
    requires RobotPlanesWritten * TeamRobotsMaxCount <= k < RobotTeamPacketSize
    ensures ProcessSsl(frame, bufs, referee).Success?
    ensures ProcessSsl(frame, bufs, referee).value.bufs.robotsBlue[k] == bufs.robotsBlue[k]
    ensures ProcessSsl(frame, bufs, referee).value.bufs.robotsYellow[k] == bufs.robotsYellow[k]
  {
    if frame.detection.Some? {
      ProcessSslWellFormed(frame, bufs, referee);
    }
  }

  /** The sixth ball (camera-local index 5) seen by camera 2, from zeroed
      buffers: camera id 2 at slot 69 of the first plane, x at 69 + 256, y at
      69 + 512; no slot outside camera 2's first six is written, and both team
      arrays and the geometry stay zero. */
  lemma SingleBallExample(frame: Frame, balls: seq<Ball>, x: real, y: real)
    requires |balls| == 6 && balls[5] == Ball(x, y)
    requires frame == Frame(None, Some(Detection(2, balls, [], [])))
    ensures var r := ProcessSsl(frame, ZeroBuffers(), Reader([]));
      && r.Success?
      && r.value.bufs.balls[69] == 2.0 && r.value.bufs.balls[325] == x && r.value.bufs.balls[581] == y
      && (forall k :: 0 <= k < BallsLength && !(BallOwner(k).0 == 2 && BallOwner(k).1 <= 5) ==> r.value.bufs.balls[k] == 0.0)
      && r.value.bufs.robotsBlue == ZeroBuffers().robotsBlue
      && r.value.bufs.robotsYellow == ZeroBuffers().robotsYellow
      && r.value.bufs.fieldInfo == [0.0, 0.0]
  {
    var z := ZeroBuffers();
    ProcessSslWellFormed(frame, z, Reader([]));
    var after := BallsAfter(z.balls, 2, balls, 0);
    assert ProcessSsl(frame, z, Reader([])).value.bufs.balls == after;
    BallOwnerOfIndex(2, 5, 0);
    BallOwnerOfIndex(2, 5, 1);
    BallOwnerOfIndex(2, 5, 2);
    assert after[69] == 2.0 && after[325] == x && after[581] == y;
    forall k | 0 <= k < BallsLength && !(BallOwner(k).0 == 2 && BallOwner(k).1 <= 5)
      ensures after[k] == 0.0
    {
    }
    assert RobotsAfter(z.robotsBlue, 2, [], 0) == z.robotsBlue;
    assert RobotsAfter(z.robotsYellow, 2, [], 0) == z.robotsYellow;
  }

  /** One blue robot with id 3: camera id, x, y, orientation at blue slots 3,
      19, 35 and 51; the yellow array stays entirely zero. */
  lemma BlueRobotExample(frame: Frame, cameraId: nat, x: real, y: real, orientation: real)
    requires ValidCamera(cameraId)
    requires frame == Frame(None, Some(Detection(cameraId, [], [Robot(3, x, y, orientation)], [])))
    ensures var r := ProcessSsl(frame, ZeroBuffers(), Reader([]));
      && r.Success?
      && r.value.bufs.robotsBlue[3] == cameraId as real
      && r.value.bufs.robotsBlue[19] == x
      && r.value.bufs.robotsBlue[35] == y
      && r.value.bufs.robotsBlue[51] == orientation
      && (forall k :: 0 <= k < RobotTeamPacketSize && k != 3 && k != 19 && k != 35 && k != 51 ==>
            r.value.bufs.robotsBlue[k] == 0.0)
      && r.value.bufs.robotsYellow == ZeroBuffers().robotsYellow
      && r.value.bufs.balls == ZeroBuffers().balls
  {
    var z := ZeroBuffers();
    var robots := [Robot(3, x, y, orientation)];
    ProcessSslWellFormed(frame, z, Reader([]));
    assert ProcessSsl(frame, z, Reader([])).value.bufs.robotsBlue == RobotsAfter(z.robotsBlue, cameraId, robots, 0);
    RobotThreeSlots(z.robotsBlue, cameraId, robots[0]);
    assert RobotsAfter(z.robotsYellow, cameraId, [], 0) == z.robotsYellow;
    assert BallsAfter(z.balls, cameraId, [], 0) == z.balls;
  }

  /** The slots of a lone robot with id 3: 3, 19, 35 and 51, nothing else. */
  lemma RobotThreeSlots(buf: seq<real>, cameraId: nat, r: Robot)
    requires |buf| == RobotTeamPacketSize && r.robotId == 3
    ensures var after := RobotsAfter(buf, cameraId, [r], 0);
      && after[3] == cameraId as real && after[19] == r.x && after[35] == r.y && after[51] == r.orientation
      && forall k :: 0 <= k < RobotTeamPacketSize && k != 3 && k != 19 && k != 35 && k != 51 ==> after[k] == buf[k]
  {
    var after := RobotsAfter(buf, cameraId, [r], 0);
    forall k | 0 <= k < RobotTeamPacketSize
      ensures after[k] == if k < RobotPlanesWritten * TeamRobotsMaxCount && RobotOwner(k).0 == 3
                          then RobotValue(cameraId, r, RobotOwner(k).1) else buf[k]
    {
      SingleRobotAfter(buf, cameraId, r, k);
    }
    RobotOwnerOfIndex(3, 0);
    RobotOwnerOfIndex(3, 1);
    RobotOwnerOfIndex(3, 2);
    RobotOwnerOfIndex(3, 3);
    forall k | 0 <= k < RobotPlanesWritten * TeamRobotsMaxCount && RobotOwner(k).0 == 3
      ensures k == 3 || k == 19 || k == 35 || k == 51
    {
      RobotOwnerOfIndex(3, RobotOwner(k).1);
    }
  }

  /** The blue list affects the blue array only: two well-formed frames that
      differ only in their blue robots leave identical ball, yellow and
      geometry buffers, the same referee reader and the same rules. */
  lemma BlueRobotsOnlyTouchBlue(frame1: Frame, frame2: Frame, bufs: Buffers, referee: Reader<RefereeCommand>)
    requires Sized(bufs)
    requires frame1.detection.Some? && WellFormed(frame1.detection.value)
    requires frame2.detection.Some? && WellFormed(frame2.detection.value)
    requires frame1.geometry == frame2.geometry
    requires frame2.detection.value == frame1.detection.value.(robotsBlue := frame2.detection.value.robotsBlue)
    ensures ProcessSsl(frame1, bufs, referee).Success? && ProcessSsl(frame2, bufs, referee).Success?
    ensures var r1, r2 := ProcessSsl(frame1, bufs, referee).value, ProcessSsl(frame2, bufs, referee).value;
      r1.bufs.(robotsBlue := []) == r2.bufs.(robotsBlue := []) && r1.referee == r2.referee && r1.rules == r2.rules
  {
    ProcessSslWellFormed(frame1, bufs, referee);
    ProcessSslWellFormed(frame2, bufs, referee);
  }

  /** A repeated robot id in one frame is last-write-wins: of two robots with
      the same id, the later one's values are the ones left in its slots. */
  lemma RepeatedIdLastWins(buf: seq<real>, cameraId: nat, first: Robot, second: Robot, plane: nat)
    requires |buf| == RobotTeamPacketSize
    requires first.robotId == second.robotId < TeamRobotsMaxCount && RobotPlane(plane)
    ensures StoreRobots(buf, cameraId, [first, second], 0).Success?
    ensures StoreRobots(buf, cameraId, [first, second], 0).value[RobotIndex(second.robotId, plane)]
            == RobotValue(cameraId, second, plane)
  {
    var robots := [first, second];
    StoreRobotsInRange(buf, cameraId, robots, 0);
    RobotOwnerOfIndex(second.robotId, plane);
    assert LastWithId(robots, second.robotId, 0) == Some(1);
  }

  // ---------------------------------------------------------------------------
  // The processor tick.

  /** The processor's bus bindings: the vision and referee readers and the
      robot-commands writer. */
  datatype ControllerState = ControllerState(
    vision: Reader<Frame>,
    referee: Reader<RefereeCommand>,
    commands: Writer<seq<byte>>)

  /** The result of one `process` call: the bindings afterwards, the buffers
      as the last flattened frame left them (local to the call, shown for
      stating how frames share them), and the exception that ended the call
      early, if any. */
  datatype Tick = Tick(state: ControllerState, bufs: Buffers, error: Option<Error>)

  /** The geometry of the last of the first `n` frames that carries one. */
  function LastGeometry(frames: seq<Frame>, n: nat): Option<Geometry>
    requires n <= |frames|
  {
    if n == 0 then None
    else if frames[n - 1].geometry.Some? then frames[n - 1].geometry
    else LastGeometry(frames, n - 1)
  }

  /** A frame that `process` gets through: it has detection and does not raise. */
  predicate Flattens(frame: Frame) {
    frame.detection.Some? && !Raises(frame)
  }

  /** Reference for the buffers of a tick: the first `n` frames flattened in
      order into one set of zeroed buffers. */
  function Replay(frames: seq<Frame>, n: nat): (b: Buffers)
    requires n <= |frames|
    requires forall j :: 0 <= j < n ==> Flattens(frames[j])
    ensures Sized(b)
    ensures b.fieldInfo == FieldInfoAfter([0.0, 0.0], LastGeometry(frames, n))
  {
    if n == 0 then ZeroBuffers()
    else
      var b := Replay(frames, n - 1);
      assert Flattens(frames[n - 1]);
      ProcessSslRaises(frames[n - 1], b, Reader([]));
      FlattenBuffers(frames[n - 1], b).value
  }

  /** Over a tick of well-formed frames, slots 64..79 of both team arrays are
      never written: they stay at the zero the buffers start with. */
  lemma {:induction false} FifthPlaneStaysZero(frames: seq<Frame>, n: nat, k: nat)
    requires n <= |frames|
    requires forall j :: 0 <= j < n ==> Flattens(frames[j]) && WellFormed(frames[j].detection.value)
    requires RobotPlanesWritten * TeamRobotsMaxCount <= k < RobotTeamPacketSize
    ensures Replay(frames, n).robotsBlue[k] == 0.0 && Replay(frames, n).robotsYellow[k] == 0.0
  {
    if n > 0 {
      FifthPlaneStaysZero(frames, n - 1, k);
      ReplayStep(frames, n - 1, Reader([]));
      FifthPlaneUntouched(frames[n - 1], Replay(frames, n - 1), Reader([]), k);
    }
  }

  /** Flattening frame `i` into the buffers of the first `i`, with any referee
      reader, succeeds and gives the buffers of the first `i + 1`. */
  lemma ReplayStep(frames: seq<Frame>, i: nat, referee: Reader<RefereeCommand>)
    requires i < |frames|
    requires forall j :: 0 <= j < i + 1 ==> Flattens(frames[j])
    ensures ProcessSsl(frames[i], Replay(frames, i), referee).Success?
    ensures Replay(frames, i + 1) == ProcessSsl(frames[i], Replay(frames, i), referee).value.bufs
  {
    var b := Replay(frames, i);
    assert Flattens(frames[i]);
    ProcessSslRaises(frames[i], b, referee);
    assert FlattenBuffers(frames[i], b).Success?;
    assert Replay(frames, i + 1) == FlattenBuffers(frames[i], b).value;
  }

  /** The packet written for every frame with detection. */
  function ConstantPacket(enc: real -> Word): seq<byte> {
    Pack(enc, ConstantRules())
  }

  /** One iteration of the loop in `process`: flatten the frame and pack the
      returned rules. Fails with IndexError when `process_ssl` raises, or
      with NoneNotIterable when the frame has no detection section and
      `process_ssl` returned None. */
  method FlattenAndPack(frame: Frame, bufs: Buffers, referee: Reader<RefereeCommand>, enc: real -> Word)
    returns (r: Result<(Buffers, Reader<RefereeCommand>, seq<byte>), Error>)
    requires Sized(bufs)
    ensures r.Failure? && r.error == NoneNotIterable <==> frame.detection.None?
    ensures r.Failure? && r.error == IndexError <==> Raises(frame)
    ensures r.Success? ==>
      && ProcessSsl(frame, bufs, referee) == Success(Flattened(r.value.0, r.value.1, Some(ConstantRules())))
      && r.value.1 == Reader([])
      && r.value.2 == ConstantPacket(enc)
  {
    var flat := ProcessSsl(frame, bufs, referee);
    ProcessSslRaises(frame, bufs, referee);
    if flat.Failure? {
      return Failure(flat.error);
    }
    var out := flat.value;
    if out.rules.None? {
      return Failure(NoneNotIterable);
    }
    r := Success((out.bufs, out.referee, Pack(enc, out.rules.value)));
  }

  /** One iteration of the loop in `process`, against the tick's reference:
      from the buffers of the first `i` frames, frame `i` either ends the tick
      with the exception it raises, or yields the buffers of the first `i + 1`
      frames and appends one constant packet to the commands. */
  method ProcessStep(frames: seq<Frame>, i: nat, bufs: Buffers, referee: Reader<RefereeCommand>,
                     commands: Writer<seq<byte>>, enc: real -> Word)
    returns (r: Result<(Buffers, Reader<RefereeCommand>, Writer<seq<byte>>), Error>)
    requires i < |frames|
    requires forall j :: 0 <= j < i ==> Flattens(frames[j])
    requires bufs == Replay(frames, i)
    ensures r.Failure? && r.error == NoneNotIterable <==> frames[i].detection.None?
    ensures r.Failure? && r.error == IndexError <==> Raises(frames[i])
    ensures r.Success? ==> forall j :: 0 <= j < i + 1 ==> Flattens(frames[j])
    ensures r.Success? ==>
      && r.value.0 == Replay(frames, i + 1)
      && r.value.1 == Reader([])
      && r.value.2 == Write(commands, ConstantPacket(enc))
  {
    var res := FlattenAndPack(frames[i], bufs, referee, enc);
    if res.Failure? {
      return Failure(res.error);
    }
    var (bufs', referee', packet') := res.value;
    assert Flattens(frames[i]);
    forall j | 0 <= j < i + 1
      ensures Flattens(frames[j])
    {
      if j == i {
        assert Flattens(frames[i]);
      }
    }
    ReplayStep(frames, i, referee);
    r := Success((bufs', referee', Write(commands, packet')));
  }

  /** How many frames of the tick produced a command record. */
  function Processed(c: ControllerState, t: Tick): int {
    |t.state.commands.written| - |c.commands.written|
  }

  /** The loop of `process` over the frames of one tick, from zeroed buffers:
      the first `n` frames are flattened and each writes the constant packet;
      the loop ends after the last frame or at the first frame that raises or
      lacks detection, whose exception it reports. */
  method ProcessFrames(frames: seq<Frame>, referee0: Reader<RefereeCommand>, commands0: Writer<seq<byte>>, enc: real -> Word)
    returns (n: nat, bufs: Buffers, referee: Reader<RefereeCommand>, commands: Writer<seq<byte>>, error: Option<Error>)
    ensures n <= |frames|
    ensures commands.written == commands0.written + seq(n, _ => ConstantPacket(enc))
    ensures forall j :: 0 <= j < n ==> Flattens(frames[j])
    ensures referee == if n == 0 then referee0 else Reader([])
    ensures error.None? ==> n == |frames| && bufs == Replay(frames, |frames|)
    ensures error.Some? ==> n < |frames| && !Flattens(frames[n])
    ensures error == Some(NoneNotIterable) ==> frames[n].detection.None?
    ensures error == Some(IndexError) ==> Raises(frames[n])
  {
    var packet := ConstantPacket(enc);
    bufs, referee, commands := ZeroBuffers(), referee0, commands0;
    n := 0;
    while n < |frames|
      invariant n <= |frames|
      invariant commands.written == commands0.written + seq(n, _ => packet)
      invariant forall j :: 0 <= j < n ==> Flattens(frames[j])
      invariant referee == if n == 0 then referee0 else Reader([])
      invariant bufs == Replay(frames, n)
    {
      var r := ProcessStep(frames, n, bufs, referee, commands, enc);
      if r.Failure? {
        return n, bufs, referee, commands, Some(r.error);
      }
      WriteRepeated(commands, commands0.written, packet, n);
      bufs, referee, commands, n := r.value.0, r.value.1, r.value.2, n + 1;
    }
    error := None;
  }

  /** `process`: drain the vision reader; flatten each new frame, in order,
      into one set of zeroed buffers; pack each frame's rules as 8-byte
      doubles and write them as one command record. A frame without a
      detection section ends the call (its None rules cannot be iterated); an
      IndexError from the loops ends it too. Records written before the
      exception stay written and the drained readers stay drained. */
  method Process(c: ControllerState, enc: real -> Word) returns (t: Tick)
    ensures t.state.vision.pending == []
    ensures 0 <= Processed(c, t) <= |c.vision.pending|
    ensures t.state.commands.written == c.commands.written + seq(Processed(c, t), _ => ConstantPacket(enc))
    ensures forall j :: 0 <= j < Processed(c, t) ==> Flattens(c.vision.pending[j])
    ensures t.error.None? <==> Processed(c, t) == |c.vision.pending|
    ensures t.error == Some(NoneNotIterable) ==> c.vision.pending[Processed(c, t)].detection.None?
    ensures t.error == Some(IndexError) ==> Raises(c.vision.pending[Processed(c, t)])
    ensures t.state.referee == if Processed(c, t) == 0 then c.referee else Reader([])
    ensures (forall j :: 0 <= j < |c.vision.pending| ==> Flattens(c.vision.pending[j])) ==> t.error.None?
    ensures t.error.None? ==> t.bufs == Replay(c.vision.pending, |c.vision.pending|)
    ensures t.error.None? ==>
      t.bufs.fieldInfo == FieldInfoAfter([0.0, 0.0], LastGeometry(c.vision.pending, |c.vision.pending|))
  {
    var (frames, vision) := ReadNew(c.vision);
    var n, bufs, referee, commands, error := ProcessFrames(frames, c.referee, c.commands, enc);
    t := Tick(ControllerState(vision, referee, commands), bufs, error);
    assert |t.state.commands.written| == |c.commands.written| + n;
  }
}

=== FILE: layout.dfy ===
/** The fixed buffer layout of the controller: the size constants and the index
    arithmetic that places a ball or a robot attribute in its flat array. */
module Layout {

  const CamerasCount: nat := 4
  const MaxBallsInCamera: nat := 64
  const MaxBallsInField: nat := 256
  const BallPacketSize: nat := 3

  const RobotsMaxCount: nat := 32
  const TeamRobotsMaxCount: nat := 16
  const SingleRobotPacketSize: nat := 5
  const RobotTeamPacketSize: nat := 80

  const GeometryPacketSize: nat := 2

  /** Length of the ball array: three planes of MaxBallsInField slots. */
  const BallsLength: nat := 768

  /** Planes of a team array that the robot loops write (camera id, x, y,
      orientation); the fifth plane of the allocation is never addressed by
      robot ids below 16. */
  const RobotPlanesWritten: nat := 4

  /** The three ball planes: camera id, x, y. */
  predicate BallPlane(plane: nat) { plane < BallPacketSize }

  /** The four written robot planes: camera id, x, y, orientation. */
  predicate RobotPlane(plane: nat) { plane < RobotPlanesWritten }

  /** Camera ids the index arithmetic was written for (one-based). */
  predicate ValidCamera(cameraId: int) { 1 <= cameraId <= CamerasCount }

  /** Index written for plane `plane` of the `ballInd`-th ball seen by camera
      `cameraId`. For camera 0 the camera-id index of the first 64 balls is
      negative and numpy wraps it (see Scatter.CameraZeroAliases). */
  function BallIndex(cameraId: int, ballInd: nat, plane: nat): (r: int)
    ensures ValidCamera(cameraId) && ballInd < MaxBallsInCamera && BallPlane(plane) ==>
      && 0 <= r < BallsLength
      && r / MaxBallsInField == plane
      && r % MaxBallsInField / MaxBallsInCamera == cameraId - 1
      && r % MaxBallsInCamera == ballInd
  {
    ballInd + plane * MaxBallsInField + (cameraId - 1) * MaxBallsInCamera
  }

  /** Inverse of BallIndex: the (camera id, ball index, plane) owning slot `k`. */
  function BallOwner(k: nat): (o: (int, nat, nat))
    requires k < BallsLength
    ensures ValidCamera(o.0) && o.1 < MaxBallsInCamera && BallPlane(o.2)
    ensures BallIndex(o.0, o.1, o.2) == k
  {
    (k % MaxBallsInField / MaxBallsInCamera + 1, k % MaxBallsInCamera, k / MaxBallsInField)
  }

  /** Index written for plane `plane` of the robot with id `robotId`. */
  function RobotIndex(robotId: nat, plane: nat): (r: nat)
    ensures robotId < TeamRobotsMaxCount && RobotPlane(plane) ==>
      && r < RobotPlanesWritten * TeamRobotsMaxCount
      && r / TeamRobotsMaxCount == plane
      && r % TeamRobotsMaxCount == robotId
  {
    assert TeamRobotsMaxCount == 16;
    robotId + plane * TeamRobotsMaxCount
  }

  /** Inverse of RobotIndex on the written planes. */
  function RobotOwner(k: nat): (o: (nat, nat))
    requires k < RobotPlanesWritten * TeamRobotsMaxCount
    ensures o.0 < TeamRobotsMaxCount && RobotPlane(o.1)
    ensures RobotIndex(o.0, o.1) == k
  {
    (k % TeamRobotsMaxCount, k / TeamRobotsMaxCount)
  }

  /** Every slot of the ball array belongs to exactly one (camera, ball, plane)
      triple: distinct triples never share a slot, in particular balls of two
      cameras never collide and the three planes are disjoint. */
  lemma BallIndexInjective(c1: int, i1: nat, p1: nat, c2: int, i2: nat, p2: nat)
    requires ValidCamera(c1) && i1 < MaxBallsInCamera && BallPlane(p1)
    requires ValidCamera(c2) && i2 < MaxBallsInCamera && BallPlane(p2)
    requires BallIndex(c1, i1, p1) == BallIndex(c2, i2, p2)
    ensures c1 == c2 && i1 == i2 && p1 == p2
  {
  }

  /** Distinct (robot id, plane) pairs never share a slot, and no written slot
      reaches the fifth plane of the team array. */
  lemma RobotIndexInjective(id1: nat, p1: nat, id2: nat, p2: nat)
    requires id1 < TeamRobotsMaxCount && RobotPlane(p1)
    requires id2 < TeamRobotsMaxCount && RobotPlane(p2)
    requires RobotIndex(id1, p1) == RobotIndex(id2, p2)
    ensures id1 == id2 && p1 == p2
    ensures RobotIndex(id1, p1) < RobotPlanesWritten * TeamRobotsMaxCount
  {
  }

  /** BallOwner undoes BallIndex: together they are a bijection between the
      in-range (camera, ball, plane) triples and the slots of the ball array. */
  lemma BallOwnerOfIndex(cameraId: int, ballInd: nat, plane: nat)
    requires ValidCamera(cameraId) && ballInd < MaxBallsInCamera && BallPlane(plane)
    ensures BallOwner(BallIndex(cameraId, ballInd, plane)) == (cameraId, ballInd, plane)
  {
  }

  /** RobotOwner undoes RobotIndex on the written planes. */
  lemma RobotOwnerOfIndex(robotId: nat, plane: nat)
    requires robotId < TeamRobotsMaxCount && RobotPlane(plane)
    ensures RobotOwner(RobotIndex(robotId, plane)) == (robotId, plane)
  {
  }

  /** The derived sizes are the products and quotients the source computes
      them from. */
  lemma BufferSizes()
    ensures MaxBallsInField == CamerasCount * MaxBallsInCamera
    ensures BallsLength == BallPacketSize * MaxBallsInField
    ensures TeamRobotsMaxCount == RobotsMaxCount / 2
    ensures RobotTeamPacketSize == SingleRobotPacketSize * TeamRobotsMaxCount
    ensures RobotPlanesWritten * TeamRobotsMaxCount < RobotTeamPacketSize
  {
  }
}

=== FILE: ndarray.dfy ===
/** The fragment of numpy's one-dimensional float64 arrays that the controller
    relies on: zero-filled allocation and item assignment with numpy's index rules. */
module NdArray {
  import opened Wrappers

  /** Exceptions that item assignment and the command loop can raise. */
  datatype Error =
    | IndexError      // an index outside [-n, n)
    | NoneNotIterable // iterating the None that a frame without detection yields

  /** numpy.zeros(n) */
  function Zeros(n: nat): (a: seq<real>)
    ensures |a| == n
    ensures forall k :: 0 <= k < n ==> a[k] == 0.0
  {
    seq(n, _ => 0.0)
  }

  /** Where `a[i] = v` lands in an array of length `n`: non-negative indices
      address from the front, negative ones count back from the end, and
      anything outside [-n, n) has no position. */
  function Position(n: nat, i: int): (p: Option<nat>)
    ensures p.Some? <==> -(n as int) <= i < n
    ensures p.Some? ==> p.value < n
    ensures 0 <= i < n ==> p == Some(i)
    ensures -(n as int) <= i < 0 ==> p == Some(n + i)
  {
    if 0 <= i < n then Some(i)
    else if -(n as int) <= i < 0 then Some(n + i)
    else None
  }

  /** `a[i] = v`: replaces exactly one element, or raises IndexError. */
  function Store(a: seq<real>, i: int, v: real): (r: Result<seq<real>, Error>)
    ensures r.Success? <==> -|a| <= i < |a|
    ensures r.Failure? ==> r.error == IndexError
    ensures r.Success? ==> |r.value| == |a|
    ensures r.Success? ==> r.value[Position(|a|, i).value] == v
    ensures r.Success? ==> forall k :: 0 <= k < |a| && Some(k) != Position(|a|, i) ==> r.value[k] == a[k]
  {
    match Position(|a|, i)
    case None => Failure(IndexError)
    case Some(p) => Success(a[p := v])
  }
}

=== FILE: packing.dfy ===
/** The command payload: the rule list `[5.0] * 32 * 13` and its packing as
    consecutive 8-byte doubles. The bit layout of a packed double is left
    abstract: packing is parameterised by an encoder of one value to 8 bytes. */
module Packing {

  newtype byte = x: int | 0 <= x < 256

  /** Size in bytes of one `struct.pack('d', v)`. */
  const DoubleSize: nat := 8

  /** The bytes of one packed double. */
  type Word = s: seq<byte> | |s| == 8 witness [0, 0, 0, 0, 0, 0, 0, 0]

  /** Python's `xs * n` on a list: n copies of xs, back to back, so every
      element comes from xs. */
  function ListRepeat<T>(xs: seq<T>, n: nat): (r: seq<T>)
    ensures |r| == |xs| * n
    ensures forall k :: 0 <= k < |r| ==> r[k] in xs
  {
    if n == 0 then []
    else
      assert |xs| * n == |xs| + |xs| * (n - 1);
      xs + ListRepeat(xs, n - 1)
  }

  /** The rules returned for every frame that carries a detection section. */
  function ConstantRules(): (r: seq<real>)
    ensures |r| == 32 * 13 == 416
    ensures forall k :: 0 <= k < |r| ==> r[k] == 5.0
  {
    var row := ListRepeat([5.0], 32);
    assert forall j :: 0 <= j < |row| ==> row[j] == 5.0;
    ListRepeat(row, 13)
  }

  /** `b''.join(...)` of packed words: the words' bytes in order. */
  function Join(ws: seq<Word>): (r: seq<byte>)
    ensures |r| == DoubleSize * |ws|
  {
    if ws == [] then [] else ws[0] + Join(ws[1..])
  }

  /** Word i of a joined byte string occupies bytes [8i, 8i + 8). */
  lemma {:induction false} JoinSlices(ws: seq<Word>)
    ensures forall i :: 0 <= i < |ws| ==> Join(ws)[DoubleSize * i .. DoubleSize * i + DoubleSize] == ws[i]
  {
    if ws != [] {
      JoinSlices(ws[1..]);
      var j, rest := Join(ws), Join(ws[1..]);
      assert j == ws[0] + rest;
      forall i | 0 < i < |ws|
        ensures j[DoubleSize * i .. DoubleSize * i + DoubleSize] == ws[i]
      {
        assert j[DoubleSize * i .. DoubleSize * i + DoubleSize]
            == rest[DoubleSize * (i - 1) .. DoubleSize * (i - 1) + DoubleSize];
      }
    }
  }

  /** Cuts a byte string into consecutive 8-byte words; the inverse of Join. */
  function Split(b: seq<byte>): (ws: seq<Word>)
    requires |b| % DoubleSize == 0
    ensures DoubleSize * |ws| == |b|
    decreases |b|
  {
    if |b| == 0 then [] else [b[..DoubleSize]] + Split(b[DoubleSize..])
  }

  lemma {:induction false} SplitJoin(ws: seq<Word>)
    ensures Split(Join(ws)) == ws
  {
    if ws != [] {
      var j := Join(ws);
      assert j[..DoubleSize] == ws[0];
      assert j[DoubleSize..] == Join(ws[1..]);
      SplitJoin(ws[1..]);
    }
  }

  lemma {:induction false} JoinSplit(b: seq<byte>)
    requires |b| % DoubleSize == 0
    ensures Join(Split(b)) == b
    decreases |b|
  {
    if |b| != 0 {
      JoinSplit(b[DoubleSize..]);
      assert b == b[..DoubleSize] + b[DoubleSize..];
    }
  }

  /** The packed double of each rule, in rule order. */
  function EncodeAll(enc: real -> Word, rules: seq<real>): (ws: seq<Word>)
    ensures |ws| == |rules|
    ensures forall i :: 0 <= i < |rules| ==> ws[i] == enc(rules[i])
  {
    seq(|rules|, i requires 0 <= i < |rules| => enc(rules[i]))
  }

  /** `b''.join(struct.pack('d', rule) for rule in rules)`: one 8-byte word per
      rule, in rule order. */
  function Pack(enc: real -> Word, rules: seq<real>): (r: seq<byte>)
    ensures |r| == DoubleSize * |rules|
  {
    Join(EncodeAll(enc, rules))
  }

  /** Rule i's encoding occupies bytes [8i, 8i + 8) of the packet. */
  lemma PackSlices(enc: real -> Word, rules: seq<real>)
    ensures forall i :: 0 <= i < |rules| ==>
      Pack(enc, rules)[DoubleSize * i .. DoubleSize * i + DoubleSize] == enc(rules[i])
  {
    JoinSlices(EncodeAll(enc, rules));
  }

  /** Cutting a packet back into words recovers each rule's encoding in order. */
  lemma UnpackPack(enc: real -> Word, rules: seq<real>)
    ensures |Pack(enc, rules)| % DoubleSize == 0
    ensures Split(Pack(enc, rules)) == EncodeAll(enc, rules)
  {
    SplitJoin(EncodeAll(enc, rules));
  }

  /** The packet written for a frame with detection: 3328 bytes, 416 copies of
      the encoding of 5.0. */
  lemma ConstantPacketLayout(enc: real -> Word)
    ensures |Pack(enc, ConstantRules())| == 3328
    ensures Split(Pack(enc, ConstantRules())) == seq(416, _ => enc(5.0))
  {
    UnpackPack(enc, ConstantRules());
  }
}

=== FILE: referee.dfy ===
/** The referee snapshot the controller consults. */
module Referee {
  import opened Bus

  datatype RefereeCommand = RefereeCommand(state: int, commandForTeam: int, isPartOfFieldLeft: bool)

  /** The command assumed when no referee record is new: RefereeCommand(0, 0, False). */
  const DefaultCommand := RefereeCommand(0, 0, false)

  /** get_last_referee_command(): drains the referee reader and returns the
      newest record, or DefaultCommand when nothing new arrived. */
  function LastRefereeCommand(r: Reader<RefereeCommand>): (res: (RefereeCommand, Reader<RefereeCommand>))
    ensures res.1.pending == []
    ensures r.pending == [] ==> res.0 == DefaultCommand
    ensures r.pending != [] ==> res.0 == r.pending[|r.pending| - 1]
  {
    var (commands, r') := ReadNew(r);
    if |commands| > 0 then (commands[|commands| - 1], r') else (DefaultCommand, r')
  }
}

=== FILE: scatter.dfy ===
/** The ball and robot loops of `process_ssl`, exactly as written: a sequence
    of numpy item assignments with no bounds guard, stopping at the first
    IndexError. Next to each loop is a slot-by-slot reference definition of
    the array it produces when the input respects the layout's bounds. */
module Scatter {
  import opened Wrappers
  import opened NdArray
  import opened Layout
  import opened Vision

  /** What a ball contributes to plane `plane`: the camera id, x, or y. */
  function BallValue(cameraId: nat, b: Ball, plane: nat): real {
    if plane == 0 then cameraId as real
    else if plane == 1 then b.x
    else b.y
  }

  /** What a robot contributes to plane `plane`: the camera id, x, y, or orientation. */
  function RobotValue(cameraId: nat, r: Robot, plane: nat): real {
    if plane == 0 then cameraId as real
    else if plane == 1 then r.x
    else if plane == 2 then r.y
    else r.orientation
  }

  /** One iteration of the ball loop: the three assignments for ball `ballInd`. */
  function StoreBall(buf: seq<real>, cameraId: nat, ballInd: nat, b: Ball): (r: Result<seq<real>, Error>)
    ensures r.Success? ==> |r.value| == |buf|
    ensures r.Failure? ==> r.error == IndexError
  {
    var a0 :- Store(buf, BallIndex(cameraId, ballInd, 0), BallValue(cameraId, b, 0));
    var a1 :- Store(a0, BallIndex(cameraId, ballInd, 1), BallValue(cameraId, b, 1));
    Store(a1, BallIndex(cameraId, ballInd, 2), BallValue(cameraId, b, 2))
  }

  /** The ball loop from ball `from` onwards. */
  function StoreBalls(buf: seq<real>, cameraId: nat, balls: seq<Ball>, from: nat): (r: Result<seq<real>, Error>)
    ensures r.Success? ==> |r.value| == |buf|
    ensures r.Failure? ==> r.error == IndexError
    decreases |balls| - from
  {
    if from >= |balls| then Success(buf)
    else
      var a :- StoreBall(buf, cameraId, from, balls[from]);
      StoreBalls(a, cameraId, balls, from + 1)
  }

  /** One iteration of a robot loop: the four assignments for robot `r`. */
  function StoreRobot(buf: seq<real>, cameraId: nat, r: Robot): (res: Result<seq<real>, Error>)
    ensures res.Success? ==> |res.value| == |buf|
    ensures res.Failure? ==> res.error == IndexError
  {
    var a0 :- Store(buf, RobotIndex(r.robotId, 0), RobotValue(cameraId, r, 0));
    var a1 :- Store(a0, RobotIndex(r.robotId, 1), RobotValue(cameraId, r, 1));
    var a2 :- Store(a1, RobotIndex(r.robotId, 2), RobotValue(cameraId, r, 2));
    Store(a2, RobotIndex(r.robotId, 3), RobotValue(cameraId, r, 3))
  }

  /** A robot loop from robot `from` onwards. */
  function StoreRobots(buf: seq<real>, cameraId: nat, robots: seq<Robot>, from: nat): (res: Result<seq<real>, Error>)
    ensures res.Success? ==> |res.value| == |buf|
    ensures res.Failure? ==> res.error == IndexError
    decreases |robots| - from
  {
    if from >= |robots| then Success(buf)
    else
      var a :- StoreRobot(buf, cameraId, robots[from]);
      StoreRobots(a, cameraId, robots, from + 1)
  }

  // ---------------------------------------------------------------------------
  // Which inputs make a loop raise.

  /** Ball `i` of camera `cameraId` fits: its offset inside a plane,
      (cameraId - 1) * 64 + i, is below 256. BallFitsIndices shows this is
      exactly "numpy accepts all three of its indices". */
  predicate BallFits(cameraId: nat, i: nat) {
    (cameraId - 1) * MaxBallsInCamera + i < MaxBallsInField
  }

  /** Balls `from` up to `count` of camera `cameraId` all fit; later balls
      have larger offsets, so it is enough that the last one does. */
  predicate BallsFit(cameraId: nat, from: nat, count: nat) {
    from < count ==> BallFits(cameraId, count - 1)
  }

  /** A robot with id `robotId` fits: its id is below 32. RobotFitsIndices
      shows this is exactly "all four of its indices are inside a team array". */
  predicate RobotFits(robotId: nat) {
    robotId < 2 * TeamRobotsMaxCount
  }

  /** The robots from position `from` on all fit. */
  predicate RobotsFit(robots: seq<Robot>, from: nat) {
    forall j :: from <= j < |robots| ==> RobotFits(robots[j].robotId)
  }

  /** A ball fits exactly when numpy accepts all three of its indices on the
      ball array: the lowest is never below -64, so only the y plane's index
      can leave the array. */
  lemma BallFitsIndices(cameraId: nat, i: nat)
    ensures BallFits(cameraId, i) <==>
      forall p :: 0 <= p < BallPacketSize ==> -(BallsLength as int) <= BallIndex(cameraId, i, p) < BallsLength
    ensures BallIndex(cameraId, i, 0) >= -(MaxBallsInCamera as int)
  {
    assert BallIndex(cameraId, i, 2) == (cameraId - 1) * MaxBallsInCamera + i + 2 * MaxBallsInField;
    if BallFits(cameraId, i) {
      forall p | 0 <= p < BallPacketSize
        ensures -(BallsLength as int) <= BallIndex(cameraId, i, p) < BallsLength
      {
        assert p == 0 || p == 1 || p == 2;
      }
    }
  }

  /** A robot fits exactly when all four of its indices are inside a team
      array: ids from 16 to 31 still fit, in the wrong slots. */
  lemma RobotFitsIndices(robotId: nat)
    ensures RobotFits(robotId) <==> forall p :: 0 <= p < RobotPlanesWritten ==> RobotIndex(robotId, p) < RobotTeamPacketSize
  {
    assert RobotIndex(robotId, 3) == robotId + 3 * TeamRobotsMaxCount;
    if RobotFits(robotId) {
      forall p | 0 <= p < RobotPlanesWritten
        ensures RobotIndex(robotId, p) < RobotTeamPacketSize
      {
        assert p == 0 || p == 1 || p == 2 || p == 3;
      }
    }
  }

  /** One ball iteration succeeds exactly when the ball fits, whatever the
      array holds. */
  lemma StoreBallFits(buf: seq<real>, cameraId: nat, i: nat, b: Ball)
    requires |buf| == BallsLength
    ensures StoreBall(buf, cameraId, i, b).Success? <==> BallFits(cameraId, i)
  {
    assert BallIndex(cameraId, i, 0) >= -(MaxBallsInCamera as int);
    assert BallIndex(cameraId, i, 1) == BallIndex(cameraId, i, 0) + MaxBallsInField;
    assert BallIndex(cameraId, i, 2) == BallIndex(cameraId, i, 0) + 2 * MaxBallsInField;
  }

  /** The ball loop raises exactly when some remaining ball does not fit. */
  lemma {:induction false} StoreBallsFit(buf: seq<real>, cameraId: nat, balls: seq<Ball>, from: nat)
    requires |buf| == BallsLength
    ensures StoreBalls(buf, cameraId, balls, from).Success? <==> BallsFit(cameraId, from, |balls|)
    decreases |balls| - from
  {
    if from < |balls| {
      StoreBallFits(buf, cameraId, from, balls[from]);
      var r := StoreBall(buf, cameraId, from, balls[from]);
      if r.Success? {
        StoreBallsFit(r.value, cameraId, balls, from + 1);
      }
      assert BallsFit(cameraId, from, |balls|) <==> BallFits(cameraId, from) && BallsFit(cameraId, from + 1, |balls|);
    }
  }

  /** One robot iteration succeeds exactly when the robot fits. */
  lemma StoreRobotFits(buf: seq<real>, cameraId: nat, r: Robot)
    requires |buf| == RobotTeamPacketSize
    ensures StoreRobot(buf, cameraId, r).Success? <==> RobotFits(r.robotId)
  {
    assert RobotIndex(r.robotId, 3) == r.robotId + 3 * TeamRobotsMaxCount;
  }

  /** A robot loop raises exactly when some remaining robot does not fit. */
  lemma {:induction false} StoreRobotsFit(buf: seq<real>, cameraId: nat, robots: seq<Robot>, from: nat)
    requires |buf| == RobotTeamPacketSize
    ensures StoreRobots(buf, cameraId, robots, from).Success? <==> RobotsFit(robots, from)
    decreases |robots| - from
  {
    if from < |robots| {
      StoreRobotFits(buf, cameraId, robots[from]);
      var r := StoreRobot(buf, cameraId, robots[from]);
      if r.Success? {
        StoreRobotsFit(r.value, cameraId, robots, from + 1);
      }
      assert RobotsFit(robots, from) <==> RobotFits(robots[from].robotId) && RobotsFit(robots, from + 1);
    }
  }

  // ---------------------------------------------------------------------------
  // Reference definitions: the array each loop leaves, slot by slot.

  /** The ball array after the loop over balls[from..], for in-range input:
      a slot owned by (camera, index, plane) holds that ball's value when the
      camera is this frame's and the index is one of the looped balls, and is
      untouched otherwise. */
  function BallsAfter(buf: seq<real>, cameraId: nat, balls: seq<Ball>, from: nat): (a: seq<real>)
    requires |buf| == BallsLength
    ensures |a| == BallsLength
  {
    seq(BallsLength, k requires 0 <= k < BallsLength =>
      var (c, i, p) := BallOwner(k);
      if c == cameraId && from <= i < |balls| then BallValue(cameraId, balls[i], p) else buf[k])
  }

  /** The position of the last robot in robots[from..] whose id is `id`. */
  function LastWithId(robots: seq<Robot>, id: nat, from: nat): (o: Option<nat>)
    ensures o.Some? ==> from <= o.value < |robots| && robots[o.value].robotId == id
    ensures o.Some? ==> forall j :: o.value < j < |robots| ==> robots[j].robotId != id
    ensures o.None? ==> forall j :: from <= j < |robots| ==> robots[j].robotId != id
    decreases |robots| - from
  {
    if from >= |robots| then None
    else match LastWithId(robots, id, from + 1)
      case Some(o) => Some(o)
      case None => if robots[from].robotId == id then Some(from) else None
  }

  /** A team array after the loop over robots[from..], for ids in range: each
      written slot holds the value of the LAST robot with that slot's id (a
      repeated id is last-write-wins), every other slot, including the whole
      fifth plane, is untouched. */
  function RobotsAfter(buf: seq<real>, cameraId: nat, robots: seq<Robot>, from: nat): (a: seq<real>)
    requires |buf| == RobotTeamPacketSize
    ensures |a| == RobotTeamPacketSize
  {
    seq(RobotTeamPacketSize, k requires 0 <= k < RobotTeamPacketSize =>
      if k < RobotPlanesWritten * TeamRobotsMaxCount then
        var (id, p) := RobotOwner(k);
        match LastWithId(robots, id, from)
        case Some(o) => RobotValue(cameraId, robots[o], p)
        case None => buf[k]
      else buf[k])
  }

  // ---------------------------------------------------------------------------
  // The loops agree with the reference definitions on in-range input.

  /** One in-range iteration of the ball loop writes exactly the three slots
      owned by that ball. */
  lemma StoreBallInRange(buf: seq<real>, cameraId: nat, i: nat, b: Ball)
    requires |buf| == BallsLength
    requires ValidCamera(cameraId) && i < MaxBallsInCamera
    ensures StoreBall(buf, cameraId, i, b).Success?
    ensures forall k :: 0 <= k < BallsLength ==>
      StoreBall(buf, cameraId, i, b).value[k] ==
        (var (c, j, p) := BallOwner(k); if c == cameraId && j == i then BallValue(cameraId, b, p) else buf[k])
  {
    var s0, s1, s2 := BallIndex(cameraId, i, 0), BallIndex(cameraId, i, 1), BallIndex(cameraId, i, 2);
    var a := buf[s0 := BallValue(cameraId, b, 0)][s1 := BallValue(cameraId, b, 1)][s2 := BallValue(cameraId, b, 2)];
    assert StoreBall(buf, cameraId, i, b) == Success(a);
    forall k | 0 <= k < BallsLength
      ensures a[k] == (var (c, j, p) := BallOwner(k); if c == cameraId && j == i then BallValue(cameraId, b, p) else buf[k])
    {
      var (c, j, p) := BallOwner(k);
      if k == s0 || k == s1 || k == s2 {
        BallIndexInjective(c, j, p, cameraId, i, if k == s0 then 0 else if k == s1 then 1 else 2);
      } else if c == cameraId && j == i {
        assert false;
      }
    }
  }

  /** For a one-based camera id of at most CamerasCount and at most
      MaxBallsInCamera balls, the ball loop never raises and produces BallsAfter. */
  lemma {:induction false} StoreBallsInRange(buf: seq<real>, cameraId: nat, balls: seq<Ball>, from: nat)
    requires |buf| == BallsLength
    requires ValidCamera(cameraId) && |balls| <= MaxBallsInCamera
    ensures StoreBalls(buf, cameraId, balls, from) == Success(BallsAfter(buf, cameraId, balls, from))
    decreases |balls| - from
  {
    if from >= |balls| {
      assert BallsAfter(buf, cameraId, balls, from) == buf;
    } else {
      StoreBallInRange(buf, cameraId, from, balls[from]);
      var a := StoreBall(buf, cameraId, from, balls[from]).value;
      StoreBallsInRange(a, cameraId, balls, from + 1);
      forall k | 0 <= k < BallsLength
        ensures BallsAfter(a, cameraId, balls, from + 1)[k] == BallsAfter(buf, cameraId, balls, from)[k]
      {
        var (c, i, p) := BallOwner(k);
        assert a[k] == if c == cameraId && i == from then BallValue(cameraId, balls[from], p) else buf[k];
      }
      assert BallsAfter(a, cameraId, balls, from + 1) == BallsAfter(buf, cameraId, balls, from);
      assert StoreBalls(buf, cameraId, balls, from) == StoreBalls(a, cameraId, balls, from + 1);
    }
  }

  /** One in-range iteration of a robot loop writes exactly the four slots
      owned by that robot id. */
  lemma StoreRobotInRange(buf: seq<real>, cameraId: nat, r: Robot)
    requires |buf| == RobotTeamPacketSize
    requires r.robotId < TeamRobotsMaxCount
    ensures StoreRobot(buf, cameraId, r).Success?
    ensures forall k :: 0 <= k < RobotTeamPacketSize ==>
      StoreRobot(buf, cameraId, r).value[k] ==
        (if k < RobotPlanesWritten * TeamRobotsMaxCount && RobotOwner(k).0 == r.robotId
         then RobotValue(cameraId, r, RobotOwner(k).1) else buf[k])
  {
    var s0, s1, s2, s3 := RobotIndex(r.robotId, 0), RobotIndex(r.robotId, 1), RobotIndex(r.robotId, 2), RobotIndex(r.robotId, 3);
    var a := buf[s0 := RobotValue(cameraId, r, 0)][s1 := RobotValue(cameraId, r, 1)]
                [s2 := RobotValue(cameraId, r, 2)][s3 := RobotValue(cameraId, r, 3)];
    assert StoreRobot(buf, cameraId, r) == Success(a);
    forall k | 0 <= k < RobotTeamPacketSize
      ensures a[k] == (if k < RobotPlanesWritten * TeamRobotsMaxCount && RobotOwner(k).0 == r.robotId
                       then RobotValue(cameraId, r, RobotOwner(k).1) else buf[k])
    {
      if k < RobotPlanesWritten * TeamRobotsMaxCount {
        var (id, p) := RobotOwner(k);
        if k == s0 || k == s1 || k == s2 || k == s3 {
          RobotIndexInjective(id, p, r.robotId, if k == s0 then 0 else if k == s1 then 1 else if k == s2 then 2 else 3);
        } else if id == r.robotId {
          assert false;
        }
      }
    }
  }

  /** For robot ids below TeamRobotsMaxCount, a robot loop never raises and
      produces RobotsAfter. */
  lemma {:induction false} StoreRobotsInRange(buf: seq<real>, cameraId: nat, robots: seq<Robot>, from: nat)
    requires |buf| == RobotTeamPacketSize
    requires RobotIdsInRange(robots)
    ensures StoreRobots(buf, cameraId, robots, from) == Success(RobotsAfter(buf, cameraId, robots, from))
    decreases |robots| - from
  {
    if from >= |robots| {
      assert RobotsAfter(buf, cameraId, robots, from) == buf;
    } else {
      StoreRobotInRange(buf, cameraId, robots[from]);
      var a := StoreRobot(buf, cameraId, robots[from]).value;
      StoreRobotsInRange(a, cameraId, robots, from + 1);
      forall k | 0 <= k < RobotTeamPacketSize
        ensures RobotsAfter(a, cameraId, robots, from + 1)[k] == RobotsAfter(buf, cameraId, robots, from)[k]
      {
        RobotsAfterStep(buf, a, cameraId, robots, from, k);
      }
      assert RobotsAfter(a, cameraId, robots, from + 1) == RobotsAfter(buf, cameraId, robots, from);
      assert StoreRobots(buf, cameraId, robots, from) == StoreRobots(a, cameraId, robots, from + 1);
    }
  }

  /** One slot of the induction step of StoreRobotsInRange: looping from
      `from + 1` over the array left by robot `from` ends where looping from
      `from` over the original array does. */
  lemma RobotsAfterStep(buf: seq<real>, a: seq<real>, cameraId: nat, robots: seq<Robot>, from: nat, k: nat)
    requires |buf| == |a| == RobotTeamPacketSize && from < |robots| && k < RobotTeamPacketSize
    requires a[k] == (if k < RobotPlanesWritten * TeamRobotsMaxCount && RobotOwner(k).0 == robots[from].robotId
                      then RobotValue(cameraId, robots[from], RobotOwner(k).1) else buf[k])
    ensures RobotsAfter(a, cameraId, robots, from + 1)[k] == RobotsAfter(buf, cameraId, robots, from)[k]
  {
    if k < RobotPlanesWritten * TeamRobotsMaxCount {
      var (id, p) := RobotOwner(k);
      var later := LastWithId(robots, id, from + 1);
      assert LastWithId(robots, id, from) ==
        if later.Some? then later else if robots[from].robotId == id then Some(from) else None;
    }
  }

  /** A robot list of one: its four slots hold its values, every other slot
      is untouched. */
  lemma SingleRobotAfter(buf: seq<real>, cameraId: nat, r: Robot, k: nat)
    requires |buf| == RobotTeamPacketSize && k < RobotTeamPacketSize
    ensures RobotsAfter(buf, cameraId, [r], 0)[k] ==
      if k < RobotPlanesWritten * TeamRobotsMaxCount && RobotOwner(k).0 == r.robotId
      then RobotValue(cameraId, r, RobotOwner(k).1) else buf[k]
  {
    if k < RobotPlanesWritten * TeamRobotsMaxCount {
      assert LastWithId([r], RobotOwner(k).0, 1) == None;
    }
  }

  // ---------------------------------------------------------------------------
  // What the unguarded loops do outside the layout's bounds.

  /** Camera id 0, for each of the first 64 balls: only the camera-id index
      is negative, and numpy wraps it onto camera 4's y slot for that ball;
      the x and y indices are in range and land one plane lower, on camera
      4's camera-id and x slots. */
  lemma CameraZeroAliases(i: nat)
    requires i < MaxBallsInCamera
    ensures BallIndex(0, i, 0) < 0 && Position(BallsLength, BallIndex(0, i, 0)) == Some(BallIndex(4, i, 2))
    ensures BallIndex(0, i, 1) == BallIndex(4, i, 0)
    ensures BallIndex(0, i, 2) == BallIndex(4, i, 1)
  {
  }

  /** Camera id 0 with one ball, the whole loop: the camera id is wrapped
      onto slot 704, x and y land on 192 and 448, all slots of camera 4's
      first ball. Nothing is raised. */
  lemma CameraZeroWraps(buf: seq<real>, b: Ball)
    requires |buf| == BallsLength
    ensures StoreBalls(buf, 0, [b], 0) == Success(buf[704 := 0.0][192 := b.x][448 := b.y])
    ensures (BallIndex(4, 0, 0), BallIndex(4, 0, 1), BallIndex(4, 0, 2)) == (192, 448, 704)
  {
    assert BallIndex(0, 0, 0) == -64 && Position(|buf|, -64) == Some(704);
    assert BallIndex(0, 0, 1) == 192 && BallIndex(0, 0, 2) == 448;
    var a0 := buf[704 := 0.0];
    assert Store(buf, -64, 0.0) == Success(a0);
    var a1 := a0[192 := b.x];
    assert Store(a0, 192, b.x) == Success(a1);
    var a := a1[448 := b.y];
    assert Store(a1, 448, b.y) == Success(a);
    assert StoreBall(buf, 0, 0, b) == Success(a);
  }

  /** Camera id 5 shifts the first two planes onto the next ones and pushes
      the third past the end: the loop raises IndexError on the first ball. */
  lemma CameraFiveRaises(buf: seq<real>, b: Ball)
    requires |buf| == BallsLength
    ensures StoreBalls(buf, 5, [b], 0) == Failure(IndexError)
  {
    assert Store(buf, BallIndex(5, 0, 0), 5.0).Success?;
  }

  /** The 65th ball of camera 4 has no next camera to spill into: its y
      index is 768 and the iteration raises IndexError. */
  lemma CameraFourOverflowRaises(buf: seq<real>, b: Ball)
    requires |buf| == BallsLength
    ensures StoreBall(buf, CamerasCount, MaxBallsInCamera, b) == Failure(IndexError)
  {
    assert BallIndex(CamerasCount, MaxBallsInCamera, 2) == 768;
  }

  /** The 65th ball of a camera below 4 takes the slots of the next camera's
      first ball. */
  lemma BallOverflowAliases(cameraId: int, plane: nat)
    requires 1 <= cameraId < CamerasCount && BallPlane(plane)
    ensures BallIndex(cameraId, MaxBallsInCamera, plane) == BallIndex(cameraId + 1, 0, plane)
    ensures 0 <= BallIndex(cameraId, MaxBallsInCamera, plane) < BallsLength
  {
  }

  /** A robot id of 16 writes over robot 0's x slot and into the fifth plane
      (slot 64), without raising. */
  lemma RobotSixteenAliases(buf: seq<real>, cameraId: nat, r: Robot)
    requires |buf| == RobotTeamPacketSize && r.robotId == TeamRobotsMaxCount
    ensures StoreRobots(buf, cameraId, [r], 0) ==
      Success(buf[16 := cameraId as real][32 := r.x][48 := r.y][64 := r.orientation])
    ensures RobotOwner(16) == (0, 1)
  {
    assert StoreRobot(buf, cameraId, r) == Success(buf[16 := cameraId as real][32 := r.x][48 := r.y][64 := r.orientation]);
    RobotOwnerOfIndex(0, 1);
  }

  /** A robot id from 16 to 31 fits, but its camera-id, x and y slots are
      robot (id - 16)'s x, y and orientation slots, and its orientation lands
      in the fifth plane. */
  lemma RobotIdAliases(robotId: nat, plane: nat)
    requires TeamRobotsMaxCount <= robotId < 2 * TeamRobotsMaxCount && plane < 3
    ensures RobotFits(robotId)
    ensures RobotIndex(robotId, plane) == RobotIndex(robotId - TeamRobotsMaxCount, plane + 1)
    ensures RobotPlanesWritten * TeamRobotsMaxCount <= RobotIndex(robotId, 3) < RobotTeamPacketSize
  {
  }

  /** A robot id from 32 up makes the orientation index reach the end of the
      80-slot team array: the loop raises IndexError. */
  lemma LargeRobotIdRaises(buf: seq<real>, cameraId: nat, r: Robot)
    requires |buf| == RobotTeamPacketSize && 2 * TeamRobotsMaxCount <= r.robotId
    ensures StoreRobots(buf, cameraId, [r], 0) == Failure(IndexError)
  {
  }
}

=== FILE: vision.dfy ===
/** The decoded SSL-Vision wrapper packet, reduced to the fields the controller
    reads. Sensor values are opaque reals: they are copied, never computed on. */
module Vision {
  import opened Wrappers
  import opened Layout

  datatype Ball = Ball(x: real, y: real)

  datatype Robot = Robot(robotId: nat, x: real, y: real, orientation: real)

  datatype Detection = Detection(
    cameraId: nat,
    balls: seq<Ball>,
    robotsBlue: seq<Robot>,
    robotsYellow: seq<Robot>)

  /** The field size part of the geometry section. */
  datatype Geometry = Geometry(fieldLength: int, fieldWidth: int)

  /** One wrapper packet: an optional geometry part and an optional detection part. */
  datatype Frame = Frame(geometry: Option<Geometry>, detection: Option<Detection>)

  /** Every robot of a team list has an id below TeamRobotsMaxCount. */
  predicate RobotIdsInRange(robots: seq<Robot>) {
    forall o :: 0 <= o < |robots| ==> robots[o].robotId < TeamRobotsMaxCount
  }

  /** The bounds the index arithmetic silently relies on: a one-based camera
      id of at most CamerasCount, at most MaxBallsInCamera balls, robot ids
      below TeamRobotsMaxCount. */
  predicate WellFormed(d: Detection) {
    && ValidCamera(d.cameraId)
    && |d.balls| <= MaxBallsInCamera
    && RobotIdsInRange(d.robotsBlue)
    && RobotIdsInRange(d.robotsYellow)
  }
}

=== FILE: wrappers.dfy ===
/** Failure-compatible Option and Result datatypes used throughout the model. */
module Wrappers {

  datatype Option<+T> = None | Some(value: T)

  /** A computation that either produced a value or raised an exception. */
  datatype Result<+T, +E> = Success(value: T) | Failure(error: E) {

    predicate IsFailure() {
      Failure?
    }

    function PropagateFailure<U>(): Result<U, E>
      requires Failure?
    {
      Failure(error)
    }

    function Extract(): T
      requires Success?
    {
      value
    }
  }
}
